=== FILE: README.md ===
# Offline music player: playlist and shuffle state machine in Dafny

This project models the playback core of a browser music player. The player
keeps a playlist of songs, the index of the loaded song (`currentSongIndex`,
-1 when nothing is loaded), the play/repeat/shuffle flags, and a shuffle
history (`playHistory`). In shuffle mode the next pick is drawn from the songs not
yet in the history, so a cycle started by switching shuffle on visits every
song once. Songs loaded outside the shuffle engine are not recorded:

- a click on a playlist entry;
- the automatic load of song 0 after files are added to an empty playlist;
- the in-order "previous" step, which shuffle mode still takes while the
  history has at most one entry;
- the load of the next song after the playing song is removed.

Such a song can be picked again right away. When the history is not empty,
"previous" after "next" goes back to the last recorded song rather than to
it. When the history is empty, as it always is after the automatic load, "next"
leaves the history at `[pick]`. "Previous" then takes the in-order step back
from the pick, which can land on that song again.

Each handler of `script.js` becomes a pure transition on one immutable
`Session` record:

- `loadSong`, `togglePlay`, `toggleRepeat`, `toggleShuffle`;
- `getNextShuffleIndex`, `nextSong`, `previousSong`, `handleSongEnd`;
- `removeSong`;
- the append-and-autoload part of `addFilesToPlaylist`.

`formatTime` is modelled on whole seconds.

Every `Math.random()` draw becomes an explicit argument `k`. It is bounded by
the length of the list `script.js` would index with it, so each transition is
deterministic.

Files (one module each):

- `index_seqs.dfy` (`IndexSeqs`): duplicate-freedom, bounds, renumbering after a removal, and the counting (pigeonhole) argument.
- `state.dfy` (`State`): `Song`, `Session`, the session invariant `Inv`, and the initial session.
- `shuffle.dfy` (`Shuffle`): the unplayed-song list, the next shuffle pick, and history renumbering on removal.
- `player.dfy` (`Player`): the handlers as transitions.
- `laws.dfy` (`Laws`):
  - every handler keeps `Inv`;
  - the shuffle cycle visits every song exactly once;
  - "previous" undoes "next" when the current song is the last history entry;
  - the next shuffle pick avoids the current song exactly when that song is recorded;
  - removal keeps indices attached to their songs;
  - a whole event run keeps `Inv`.
- `time_format.dfy` (`TimeFormat`): the `m:ss` formatter.
- `scenarios.dfy` (`Scenarios`): small concrete walk-throughs.

`Inv` is derived from the code; no comment in the code states it. It says:

- `-1 <= current < |playlist|`;
- `current == -1` exactly when the playlist is empty;
- every history entry is a valid index;
- the history has no duplicates.

The history does not always end with the current song, because clicking a
playlist entry loads it without touching the history. So that is not part of
the invariant.

Points where the code's behaviour may surprise a reader, all modelled as
written:

- An out-of-range `loadSong` is silently ignored. It does not fail.
- The comment in `toggleShuffle` says the start song is "not the first one",
  but the draw `Math.floor(Math.random() * playlist.length)` can give index 0.
  The model allows every start index below the playlist length.
- The shuffle history is renumbered when a song is removed, not cleared. It is
  cleared only when the removal empties the playlist.
- `removeSong` does not check its index (`playlist[index].url` would throw), so
  `RemoveSong` requires a valid index.
- The linear "previous" uses `current > 0 ? current - 1 : size - 1`. Under
  `Inv` with a non-empty playlist this agrees with `(current - 1 + size) % size`.
- `removeSong` sets `currentSongIndex = newIndex - 1` and then calls
  `loadSong(newIndex)`. The model keeps both writes, and its contract states the
  net effect: `current == newIndex`.

## Model

| member | source | states |
|---|---|---|
| State.Initial | script.js:2-8 | the starting session has an empty playlist, `current = -1`, all flags off, an empty history, and satisfies the invariant |
| Player.LoadSong | script.js:193-209 | an index outside the playlist changes nothing; a valid index becomes `current` and nothing else changes (playlist, history, play state, flags) |
| Player.TogglePlay | script.js:221-239 | a no-op on an empty playlist; otherwise it loads song 0 if nothing was loaded, flips `isPlaying`, and leaves playlist, history and mode flags alone |
| Player.ToggleRepeat | script.js:241-245 | flips the repeat flag and changes nothing else |
| Player.ToggleShuffle | script.js:247-271 | turning on with songs gives history `[k]`, `current = k` and playing; turning on with no songs clears the history only; turning off clears the history and keeps `current` and the play state |
| Shuffle.Unplayed | script.js:276-282 | an index is in the unplayed list exactly when it is in `[0, n)` and not in the history; the list is strictly ascending, so it has no duplicates |
| Shuffle.UnplayedEmpty | script.js:284-285 | the unplayed list is empty exactly when the history covers every index |
| Shuffle.NextShuffleIndex | script.js:273-301 | on at most one song the pick is 0 and the history is unchanged; otherwise the pick is in range; if some song is unplayed, the pick is unplayed and is appended; if all are played, the history becomes `[current, pick]` with `pick != current` |
| Shuffle.EveryCandidateDrawable | script.js:276-297 | every song outside the (possibly restarted) history is the pick for some valid draw |
| Shuffle.DrawsPickDistinctSongs | script.js:295-297 | two different valid draws pick two different songs, so draws and candidates correspond one to one and a uniform draw is a uniform pick |
| Player.NextSong | script.js:329-340 | a no-op on an empty playlist; in order it moves to `current + 1`, or wraps to 0 from the last song, and always lands in range; under shuffle it takes the engine's pick and history; playlist and flags are kept |
| Player.PreviousSong | script.js:314-327 | a no-op on an empty playlist; under shuffle with more than one history entry it drops exactly the last entry and loads the new last one; otherwise it loads `current - 1`, or the last song when `current <= 0` |
| Player.HandleSongEnd | script.js:303-312 | under repeat the session, history included, is unchanged; otherwise it is exactly a skip forward |
| Player.RemoveAt | script.js:384 | the playlist shrinks by one and every remaining song moves to its renumbered position |
| Shuffle.RenumberHistory | script.js:386-387 | an index is in the new history exactly when the entry it now denotes was in the old one; if the removed index was absent, every entry is renumbered in place |
| Shuffle.RenumberHistoryDropsRemoved | script.js:387 | when the duplicate-free history holds the removed index at position `p`, the result is one shorter, and entry `a` is the renumbered old entry at `a` before `p` and at `a + 1` from `p` on, so the order is kept |
| Shuffle.RenumberHistoryKeepsIndices | script.js:387 | renumbering keeps the history duplicate-free and within the shrunken playlist |
| Player.RemoveSong | script.js:378-409 | the playlist loses entry `i` and the history is renumbered; removing the only song gives `current = -1`, not playing, empty history; removing the current song loads position `i`, or 0 if `i` was last; an earlier removal decrements `current`; a later one keeps it |
| Player.AppendSongs | script.js:156-170 | songs are appended in order; history and flags are kept; a session with nothing loaded and now non-empty loads song 0; otherwise `current` is kept |
| Player.Filter | script.js:142-145 | an element is kept exactly when it is in the input and passes the test; if everything passes, the input is returned unchanged |
| Player.FilterAppend | script.js:142-145 | filtering distributes over concatenation, so kept files keep their relative order |
| Player.SongsOf | script.js:147-156 | one song per audio file, in file order |
| Player.AddFiles | script.js:141-171 | the old playlist is a prefix of the new one, followed by one song per accepted file in file order; every added song comes from an accepted file; history and flags are kept; autoload of song 0 happens exactly when nothing was loaded |
| Player.AddFilesKeepsAudio | script.js:142-156 | every accepted file's song ends up in the appended part of the playlist |
| Laws.AllPlayedIffFullHistory | script.js:284-293 | under the invariant, the "all played" branch fires exactly when the history is as long as the playlist, and the history is never longer |
| Laws.LoadSongKeepsInv | script.js:193-196 | `loadSong` keeps the invariant |
| Laws.TogglePlayKeepsInv | script.js:221-226 | `togglePlay` keeps the invariant |
| Laws.ToggleRepeatKeepsInv | script.js:241-242 | `toggleRepeat` keeps the invariant |
| Laws.ToggleShuffleKeepsInv | script.js:247-268 | `toggleShuffle` keeps the invariant |
| Laws.NextSongKeepsInv | script.js:329-340 | `nextSong`, the shuffle pick included, keeps the invariant |
| Laws.PreviousSongKeepsInv | script.js:314-327 | `previousSong` keeps the invariant |
| Laws.HandleSongEndKeepsInv | script.js:303-312 | `handleSongEnd` keeps the invariant |
| Laws.RemoveSongKeepsInv | script.js:378-406 | `removeSong` keeps the invariant, history renumbering included |
| Laws.AppendSongsKeepsInv | script.js:156-170 | appending with autoload keeps the invariant |
| Laws.AddFilesKeepsInv | script.js:141-171 | adding files keeps the invariant |
| Laws.RemoveSongKeepsHistorySongs | script.js:384-387 | after a removal, every surviving history entry, renumbered, is still in the history and names the same song |
| Laws.RemoveSongHistoryDenotesOldSongs | script.js:384-387 | every index left in the history is valid and names the song its original entry named |
| Laws.RemoveSongKeepsCurrentSong | script.js:404-406 | removing any song other than the current one leaves the same song current |
| Laws.PreviousUndoesNext | script.js:314-340 | in order, "previous" right after "next" restores the whole session; under shuffle, provided the current song is the last history entry, it returns to the same song and also restores the history on a one-song playlist or when the step did not begin a new cycle |
| Laws.NextAfterFullCycle | script.js:284-299 | with every song played, the next pick resets the history to `[current, pick]` and moves to a different valid song |
| Laws.NextPicksUnplayed | script.js:276-300 | while a song is unplayed, the next pick is unplayed and valid, and the history grows by exactly that song |
| Laws.NextLeavesRecordedSong | script.js:276-299 | under shuffle on two or more songs, when the current song is in the history, "next" moves to a different song |
| Laws.NextMayReplayUnrecordedSong | script.js:276-297 | under shuffle on two or more songs, when the current song is not in the history, some valid draw makes "next" pick the current song again |
| Laws.ToggleRepeatInvolution | script.js:241-245 | toggling repeat twice restores the session |
| Laws.StepKeepsInv | script.js:193-409 | every handler, applied with valid draws, keeps the invariant |
| Laws.RunKeepsInv | script.js:193-409 | any sequence of enabled events keeps the invariant |
| Laws.NextsKeepCycle | script.js:273-301 | within one cycle, a run of "next" events keeps the invariant, shuffle mode and the playlist, and adds exactly one history entry per event |
| Laws.NextsExtendHistory | script.js:273-301 | within one cycle, a run of "next" events keeps the old history as a prefix and ends with the current song as the last history entry |
| Laws.ShuffleCycleVisitsEverySong | script.js:247-301 | turning shuffle on and skipping forward one time fewer than there are songs visits every song exactly once: the history is a duplicate-free list of all indices, starting at the drawn start song and ending at the current song |
| TimeFormat.NatToString | script.js:431 | gives a non-empty digit string with no leading zero whose decimal value is the number |
| TimeFormat.FormatTime | script.js:426-432 | gives minutes, a colon and two second digits; the seconds part is below 60, and minutes times 60 plus seconds equals the input |
| Scenarios.LinearNextWraps | script.js:329-340 | on `[A, B, C]` in order, "next" goes 0, 1, 2, 0 and restores the session |
| Scenarios.TwoSongShuffle | script.js:247-301 | with two songs and shuffle started at 0, the only valid pick is 1 (history `[0, 1]`); the next completes the cycle and picks 0 (history `[1, 0]`) |
| Scenarios.ShuffleReplaysAutoloadedSong | script.js:251-253 | shuffle turned on while the playlist is empty, then two songs added: song 0 autoloads with an empty history, and the draw 0 makes "next" play song 0 again |
| Scenarios.ShuffleReplaysAfterPrevious | script.js:247-340 | on `[A, B, C]`, shuffle started at song 1 records `[1]`; "previous" takes the in-order step to song 0 and keeps `[1]`; the draw 0 then makes "next" play song 0 again |
| Scenarios.RemovalLoadsUnrecordedSong | script.js:387-402 | removing the playing song 0 under shuffle with history `[0]` loads song 0, the former song 1, with an empty history |
| Scenarios.PreviousReturnsToAutoloadedSong | script.js:314-327 | shuffle turned on while empty, two songs added (song 0 autoloads, history `[]`), "next" with draw 1 plays song 1 with history `[1]`, and "previous" takes the in-order step back to song 0 |
| Scenarios.PreviousSkipsClickedSong | script.js:180 | on `[A, B, C]` under shuffle with history `[0]`, a click loads song 2, "next" with draw 0 plays song 1, and "previous" then goes to song 0, not song 2 |
| Scenarios.RemoveRenumbers | script.js:378-409 | removing song 0 while song 2 plays gives `current = 1` and history `[0, 2, 1]` becomes `[1, 0]`; removing the playing last song moves to song 0 |
| Scenarios.DurationWithMinutes | script.js:426-432 | 75 seconds read `1:15` |
| Scenarios.DurationPadsSeconds | script.js:426-432 | 5 seconds read `0:05` |

## Left out

- Rendering and page text are not modelled. This covers the playlist HTML, song title and info line, tab title, button labels, theme toggle, dropdown, and warning bar/popup. None of them feeds back into the session.
- The audio element is not modelled: loading a source, `play()`/`pause()`, `currentTime`, volume, seeking (`rewind15`, `forward15`, `seekTo`, `updateProgress`). These are floating-point operations on a browser object. The session keeps only the `isPlaying` flag the code keeps.
- Player.LoadSong: the `play()` call issued when already playing has no effect on the session, so it is not modelled.
- Player.HandleSongEnd: the rewind to time 0 under repeat acts on the audio element only, so it is not modelled.
- Asynchronous duration loading (`new Audio(url)` with `loadedmetadata`) and object-URL creation and revocation are not modelled. The song record has no duration field.
- The streaming-link pipeline is not modelled: access token, track fetch, `addStreamingLink`, `detectStreamingLink`. It is network I/O plus regex search.
- The MIME-type and extension test and the name/URL derivation are parameters `isAudio` and `toSong` of `AddFiles`, not modelled regexes.
- Keyboard shortcuts are not modelled. They only map keys to the handlers above.
- TimeFormat.FormatTime: takes whole non-negative seconds. The `NaN` case and the flooring of fractional seconds are not modelled. Minute counts of 10^21 and more, which JavaScript prints in exponent notation, are written out in full.

=== FILE: index_seqs.dfy ===
/** Facts about sequences of playlist indices: duplicate-freedom, bounds, the
    renumbering applied when a playlist entry is removed, and the counting
    argument that links "every index was visited" to the length of a log. */
module IndexSeqs {

  /** No value occurs twice in `s`. */
  predicate Distinct(s: seq<int>) {
    forall a, b :: 0 <= a < b < |s| ==> s[a] != s[b]
  }

  /** Every entry of `s` is a valid index into a collection of `n` items. */
  predicate AllBelow(s: seq<int>, n: int) {
    forall a :: 0 <= a < |s| ==> 0 <= s[a] < n
  }

  /** Every index of a collection of `n` items occurs in `s`. */
  predicate Covers(s: seq<int>, n: int) {
    forall i :: 0 <= i < n ==> i in s
  }

  /** The new position of the item that sat at `e` once the item at `removed`
      is taken out of the collection (`e != removed`). */
  function Renumber(e: int, removed: int): int {
    if e > removed then e - 1 else e
  }

  /** The position, before the item at `removed` was taken out, of the item
      that now sits at `j`: the inverse of `Renumber`. */
  function Origin(j: int, removed: int): int {
    if j < removed then j else j + 1
  }

  /** The set of values of `s`. */
  function Elements(s: seq<int>): set<int> {
    set x | x in s
  }

  /** The set of valid indices of a collection of `n` items. */
  function IndexSet(n: int): (r: set<int>)
    ensures forall i :: i in r <==> 0 <= i < n
    decreases n
  {
    if n <= 0 then {} else IndexSet(n - 1) + {n - 1}
  }

  /** A subset is no larger than its superset. */
  lemma SubsetSize(a: set<int>, b: set<int>)
    requires a <= b
    ensures |a| <= |b|
  {
    assert a + (b - a) == b;
    assert a * (b - a) == {};
  }

  lemma {:induction false} DistinctElements(s: seq<int>)
    requires Distinct(s)
    ensures |Elements(s)| == |s|
  {
    if |s| > 0 {
      var t := s[1..];
      assert Distinct(t) by {
        forall a, b | 0 <= a < b < |t|
          ensures t[a] != t[b]
        {
          assert t[a] == s[a + 1] && t[b] == s[b + 1];
        }
      }
      DistinctElements(t);
      assert Elements(s) == Elements(t) + {s[0]} by {
        forall x | x in s
          ensures x == s[0] || x in t
        {
          var j :| 0 <= j < |s| && s[j] == x;
          if j > 0 {
            assert t[j - 1] == x;
          }
        }
      }
      assert s[0] !in Elements(t) by {
        forall j | 0 <= j < |t|
          ensures t[j] != s[0]
        {
          assert t[j] == s[j + 1];
        }
      }
    }
  }

  lemma {:induction false} IndexSetSize(n: nat)
    ensures |IndexSet(n)| == n
  {
    if n > 0 {
      IndexSetSize(n - 1);
      var prev := IndexSet(n - 1);
      assert IndexSet(n) == prev + {n - 1};
      assert n - 1 !in prev;
    }
  }

  /** A duplicate-free log of indices below `n` can be no longer than `n`, and
      it has length exactly `n` precisely when it covers every index. */
  lemma Pigeonhole(s: seq<int>, n: nat)
    requires Distinct(s) && AllBelow(s, n)
    ensures |s| <= n
    ensures |s| == n <==> Covers(s, n)
  {
    var es, idx := Elements(s), IndexSet(n);
    DistinctElements(s);
    IndexSetSize(n);
    assert es <= idx by {
      forall x | x in es
        ensures x in idx
      {
        var j :| 0 <= j < |s| && s[j] == x;
      }
    }
    SubsetSize(es, idx);
    if |s| == n {
      forall i | 0 <= i < n
        ensures i in s
      {
        if i !in s {
          assert i in idx - es;
          assert es <= idx - {i};
          SubsetSize(es, idx - {i});
        }
      }
    }
    if Covers(s, n) {
      assert idx <= es;
      assert es == idx;
    }
  }
}

=== FILE: laws.dfy ===
/** Properties of the player that relate transitions to each other and to the
    session invariant: every handler keeps `Inv`, the shuffle engine visits
    each song once per cycle, "previous" undoes "next", and removal keeps
    every remembered index pointing at its song. */
module Laws {
  import opened IndexSeqs
  import opened State
  import opened Shuffle
  import opened Player

  lemma DistinctAppend(h: seq<int>, x: int)
    requires Distinct(h) && x !in h
    ensures Distinct(h + [x])
  {
    var g := h + [x];
    forall a, b | 0 <= a < b < |g|
      ensures g[a] != g[b]
    {
      if b == |h| {
        assert g[a] == h[a];
      }
    }
  }

  /** Under the invariant, the "every song already played" branch of the
      shuffle engine is taken exactly when the history is as long as the
      playlist. */
  lemma AllPlayedIffFullHistory(s: Session)
    requires Inv(s)
    ensures Unplayed(|s.playlist|, s.history) == [] <==> |s.history| == |s.playlist|
    ensures |s.history| <= |s.playlist|
  {
    UnplayedEmpty(|s.playlist|, s.history);
    Pigeonhole(s.history, |s.playlist|);
  }

  lemma LoadSongKeepsInv(s: Session, index: int)
    requires Inv(s)
    ensures Inv(LoadSong(s, index))
  {
  }

  lemma TogglePlayKeepsInv(s: Session)
    requires Inv(s)
    ensures Inv(TogglePlay(s))
  {
  }

  lemma ToggleRepeatKeepsInv(s: Session)
    requires Inv(s)
    ensures Inv(ToggleRepeat(s))
  {
  }

  lemma ToggleShuffleKeepsInv(s: Session, k: nat)
    requires Inv(s) && ShuffleOnOk(s, k)
    ensures Inv(ToggleShuffle(s, k))
  {
  }

  lemma NextSongKeepsInv(s: Session, k: nat)
    requires Inv(s) && NextOk(s, k)
    ensures Inv(NextSong(s, k))
  {
    var n := |s.playlist|;
    if n > 1 && s.isShuffling {
      var p := NextShuffleIndex(n, s.current, s.history, k);
      if !Covers(s.history, n) {
        DistinctAppend(s.history, p.index);
      }
    }
  }

  lemma PreviousSongKeepsInv(s: Session)
    requires Inv(s)
    ensures Inv(PreviousSong(s))
  {
    if |s.playlist| > 0 && s.isShuffling && |s.history| > 1 {
      var popped := s.history[..|s.history| - 1];
      assert forall a :: 0 <= a < |popped| ==> popped[a] == s.history[a];
    }
  }

  lemma HandleSongEndKeepsInv(s: Session, k: nat)
    requires Inv(s) && (s.isRepeating || NextOk(s, k))
    ensures Inv(HandleSongEnd(s, k))
  {
    if !s.isRepeating {
      NextSongKeepsInv(s, k);
    }
  }

  lemma RemoveSongKeepsInv(s: Session, index: int)
    requires Inv(s) && 0 <= index < |s.playlist|
    ensures Inv(RemoveSong(s, index))
  {
    RenumberHistoryKeepsIndices(s.history, index, |s.playlist|);
  }

  lemma AppendSongsKeepsInv(s: Session, songs: seq<Song>)
    requires Inv(s)
    ensures Inv(AppendSongs(s, songs))
  {
  }

  lemma AddFilesKeepsInv<F(!new)>(s: Session, files: seq<F>, isAudio: F -> bool, toSong: F -> Song)
    requires Inv(s)
    ensures Inv(AddFiles(s, files, isAudio, toSong))
  {
  }

  /** Removing a song keeps every surviving history entry, renumbered, on the
      same song. */
  lemma RemoveSongKeepsHistorySongs(s: Session, index: int)
    requires Inv(s) && 0 <= index < |s.playlist|
    ensures var r := RemoveSong(s, index);
      forall e :: e in s.history && e != index ==>
        && Renumber(e, index) in r.history
        && 0 <= Renumber(e, index) < |r.playlist|
        && r.playlist[Renumber(e, index)] == s.playlist[e]
  {
    var r := RemoveSong(s, index);
    assert r.playlist == RemoveAt(s.playlist, index);
    forall e | e in s.history && e != index
      ensures Renumber(e, index) in r.history
      ensures 0 <= Renumber(e, index) < |r.playlist|
      ensures r.playlist[Renumber(e, index)] == s.playlist[e]
    {
      var a :| 0 <= a < |s.history| && s.history[a] == e;
      assert 0 <= e < |s.playlist|;
      var j := Renumber(e, index);
      assert Origin(j, index) == e;
      assert |s.playlist| > 1;
      assert r.history == RenumberHistory(s.history, index);
    }
  }

  /** Every index left in the history after a removal is valid and denotes
      the song the history entry it came from denoted. */
  lemma RemoveSongHistoryDenotesOldSongs(s: Session, index: int)
    requires Inv(s) && 0 <= index < |s.playlist|
    ensures var r := RemoveSong(s, index);
      forall j :: j in r.history ==>
        0 <= j < |r.playlist| && r.playlist[j] == s.playlist[Origin(j, index)]
  {
    var r := RemoveSong(s, index);
    RemoveSongKeepsInv(s, index);
    forall j | j in r.history
      ensures 0 <= j < |r.playlist|
    {
      var a :| 0 <= a < |r.history| && r.history[a] == j;
    }
  }

  /** Removing any song but the current one leaves the current song playing. */
  lemma RemoveSongKeepsCurrentSong(s: Session, index: int)
    requires Inv(s) && 0 <= index < |s.playlist| && s.current != index
    ensures var r := RemoveSong(s, index);
      0 <= r.current < |r.playlist| && r.playlist[r.current] == s.playlist[s.current]
  {
  }

  /** "Previous" right after "next" returns to the song that was playing: in
      playlist order the whole session is restored; under shuffle the song is
      the same, and so is the history unless the step started a new cycle,
      which never happens on a one-song playlist. */
  lemma PreviousUndoesNext(s: Session, k: nat)
    requires Inv(s) && |s.playlist| > 0 && NextOk(s, k)
    requires s.isShuffling ==> |s.history| > 0 && s.history[|s.history| - 1] == s.current
    ensures PreviousSong(NextSong(s, k)).current == s.current
    ensures !s.isShuffling ==> PreviousSong(NextSong(s, k)) == s
    ensures s.isShuffling && (|s.playlist| == 1 || |s.history| < |s.playlist|) ==>
      PreviousSong(NextSong(s, k)).history == s.history
  {
    var n := |s.playlist|;
    var t := NextSong(s, k);
    if s.isShuffling {
      if n == 1 {
        Pigeonhole(s.history, 1);
      } else {
        AllPlayedIffFullHistory(s);
        if |s.history| < n {
          NextPicksUnplayed(s, k);
          assert t.history[..|t.history| - 1] == s.history;
        } else {
          NextAfterFullCycle(s, k);
          assert t.history[..|t.history| - 1] == [s.current];
        }
      }
    }
  }

  /** Once every song of the cycle has been played, the next pick restarts the
      history from the current song and moves to a different song. */
  lemma NextAfterFullCycle(s: Session, k: nat)
    requires Inv(s) && s.isShuffling && |s.playlist| >= 2 && NextOk(s, k)
    requires |s.history| == |s.playlist|
    ensures var r := NextSong(s, k);
      r.history == [s.current, r.current] && r.current != s.current &&
      0 <= r.current < |r.playlist|
  {
    AllPlayedIffFullHistory(s);
    UnplayedEmpty(|s.playlist|, s.history);
  }

  /** While some song is unplayed, the next pick is an unplayed song and the
      history grows by exactly that song. */
  lemma NextPicksUnplayed(s: Session, k: nat)
    requires Inv(s) && s.isShuffling && |s.playlist| >= 2 && NextOk(s, k)
    requires |s.history| < |s.playlist|
    ensures var r := NextSong(s, k);
      r.history == s.history + [r.current] && r.current !in s.history &&
      0 <= r.current < |r.playlist|
  {
    AllPlayedIffFullHistory(s);
    UnplayedEmpty(|s.playlist|, s.history);
  }

  /** Under shuffle, "next" cannot replay the loaded song once that song is
      recorded in the history. */
  lemma NextLeavesRecordedSong(s: Session, k: nat)
    requires Inv(s) && s.isShuffling && |s.playlist| >= 2 && NextOk(s, k)
    requires s.current in s.history
    ensures NextSong(s, k).current != s.current
  {
    UnplayedEmpty(|s.playlist|, s.history);
  }

  /** Conversely, a loaded song missing from the history is still a
      candidate, so some draw makes "next" replay it. Such songs are loaded
      by a click, by the automatic load after adding files, by the in-order
      "previous" step taken while the history has at most one entry, and by
      the load that follows removing the playing song. */
  lemma NextMayReplayUnrecordedSong(s: Session)
    requires Inv(s) && s.isShuffling && |s.playlist| >= 2
    requires s.current !in s.history
    ensures exists k: nat :: NextOk(s, k) && NextSong(s, k).current == s.current
  {
    var n := |s.playlist|;
    UnplayedEmpty(n, s.history);
    assert !Covers(s.history, n);
    assert CycleHistory(n, s.current, s.history) == s.history;
    EveryCandidateDrawable(n, s.current, s.history, s.current);
    var k: nat :| ChoiceOk(n, s.current, s.history, k) &&
      NextShuffleIndex(n, s.current, s.history, k).index == s.current;
    assert NextOk(s, k);
  }

  lemma ToggleRepeatInvolution(s: Session)
    ensures ToggleRepeat(ToggleRepeat(s)) == s
  {
  }

  /** Everything a user or the audio element can do to the session. Each
      random draw travels with the event that needs it. */
  datatype Event =
    | Load(index: int)
    | PlayPause
    | Repeat
    | ShuffleToggle(start: nat)
    | Next(draw: nat)
    | Previous
    | SongEnded(draw: nat)
    | Remove(index: int)
    | Append(songs: seq<Song>)

  /** The draws an event carries are valid, and a removal names an existing
      song (`script.js` would throw otherwise). */
  predicate Enabled(s: Session, e: Event) {
    match e
    case ShuffleToggle(k) => ShuffleOnOk(s, k)
    case Next(k) => NextOk(s, k)
    case SongEnded(k) => s.isRepeating || NextOk(s, k)
    case Remove(i) => 0 <= i < |s.playlist|
    case _ => true
  }

  function Step(s: Session, e: Event): Session
    requires Enabled(s, e)
  {
    match e
    case Load(i) => LoadSong(s, i)
    case PlayPause => TogglePlay(s)
    case Repeat => ToggleRepeat(s)
    case ShuffleToggle(k) => ToggleShuffle(s, k)
    case Next(k) => NextSong(s, k)
    case Previous => PreviousSong(s)
    case SongEnded(k) => HandleSongEnd(s, k)
    case Remove(i) => RemoveSong(s, i)
    case Append(songs) => AppendSongs(s, songs)
  }

  lemma StepKeepsInv(s: Session, e: Event)
    requires Inv(s) && Enabled(s, e)
    ensures Inv(Step(s, e))
  {
    match e
    case Load(i) => LoadSongKeepsInv(s, i);
    case PlayPause => TogglePlayKeepsInv(s);
    case Repeat => ToggleRepeatKeepsInv(s);
    case ShuffleToggle(k) => ToggleShuffleKeepsInv(s, k);
    case Next(k) => NextSongKeepsInv(s, k);
    case Previous => PreviousSongKeepsInv(s);
    case SongEnded(k) => HandleSongEndKeepsInv(s, k);
    case Remove(i) => RemoveSongKeepsInv(s, i);
    case Append(songs) => AppendSongsKeepsInv(s, songs);
  }

  /** Every event of `es`, applied in order, is enabled when it arrives. */
  predicate ValidRun(s: Session, es: seq<Event>)
    decreases |es|
  {
    |es| == 0 || (Enabled(s, es[0]) && ValidRun(Step(s, es[0]), es[1..]))
  }

  function Run(s: Session, es: seq<Event>): Session
    requires ValidRun(s, es)
    decreases |es|
  {
    if |es| == 0 then s else Run(Step(s, es[0]), es[1..])
  }

  /** Any session the page can reach keeps the invariant. */
  lemma {:induction false} RunKeepsInv(s: Session, es: seq<Event>)
    requires Inv(s) && ValidRun(s, es)
    ensures Inv(Run(s, es))
    decreases |es|
  {
    if |es| > 0 {
      StepKeepsInv(s, es[0]);
      RunKeepsInv(Step(s, es[0]), es[1..]);
    }
  }

  /** A run of "next" events with the given draws. */
  function Nexts(ks: seq<nat>): (es: seq<Event>)
    ensures |es| == |ks|
    ensures forall i :: 0 <= i < |ks| ==> es[i] == Next(ks[i])
  {
    seq(|ks|, i requires 0 <= i < |ks| => Next(ks[i]))
  }

  /** Within one shuffle cycle, a run of "next" events keeps the invariant,
      shuffle mode and the playlist, and lengthens the history by one per
      event. */
  lemma {:induction false} NextsKeepCycle(s: Session, ks: seq<nat>)
    requires Inv(s) && s.isShuffling && |s.playlist| >= 2
    requires |s.history| + |ks| <= |s.playlist|
    requires ValidRun(s, Nexts(ks))
    ensures var r := Run(s, Nexts(ks));
      && Inv(r) && r.isShuffling && r.playlist == s.playlist
      && |r.history| == |s.history| + |ks|
    decreases |ks|
  {
    if |ks| > 0 {
      RunNextsUnfold(s, ks);
      ShuffleStep(s, ks[0]);
      NextsKeepCycle(NextSong(s, ks[0]), ks[1..]);
    }
  }

  /** Within one shuffle cycle, each "next" appends a not yet visited song to
      the history and makes it the current song. */
  lemma {:induction false} NextsExtendHistory(s: Session, ks: seq<nat>)
    requires Inv(s) && s.isShuffling && |s.playlist| >= 2
    requires |s.history| + |ks| <= |s.playlist|
    requires ValidRun(s, Nexts(ks))
    ensures s.history <= Run(s, Nexts(ks)).history
    ensures |ks| > 0 ==> CurrentIsLatest(Run(s, Nexts(ks)))
    decreases |ks|
  {
    NextsKeepCycle(s, ks);
    if |ks| > 0 {
      RunNextsUnfold(s, ks);
      var t := NextSong(s, ks[0]);
      ShuffleStep(s, ks[0]);
      NextsExtendHistory(t, ks[1..]);
      var r := Run(t, Nexts(ks[1..]));
      assert s.history <= r.history by {
        assert s.history <= t.history;
      }
      if |ks| == 1 {
        assert r == t by {
          assert Nexts(ks[1..]) == [];
        }
        assert CurrentIsLatest(t);
      } else {
        assert |ks[1..]| > 0;
      }
    }
  }

  /** The current song is the latest entry of the shuffle history. */
  predicate CurrentIsLatest(s: Session) {
    |s.history| > 0 && s.current == s.history[|s.history| - 1]
  }

  /** The first step of a run of "next" events. */
  lemma RunNextsUnfold(s: Session, ks: seq<nat>)
    requires |ks| > 0 && ValidRun(s, Nexts(ks))
    ensures NextOk(s, ks[0])
    ensures ValidRun(NextSong(s, ks[0]), Nexts(ks[1..]))
    ensures Run(s, Nexts(ks)) == Run(NextSong(s, ks[0]), Nexts(ks[1..]))
  {
    assert Nexts(ks)[1..] == Nexts(ks[1..]);
  }

  /** One "next" event inside a shuffle cycle, as `NextsExtendHistory` uses it. */
  lemma ShuffleStep(s: Session, k: nat)
    requires Inv(s) && s.isShuffling && |s.playlist| >= 2 && NextOk(s, k)
    requires |s.history| < |s.playlist|
    ensures var t := NextSong(s, k);
      && Inv(t) && t.isShuffling && t.playlist == s.playlist
      && t.history == s.history + [t.current]
  {
    NextPicksUnplayed(s, k);
    NextSongKeepsInv(s, k);
  }

  /** Switching shuffle on and skipping forward once less than there are
      songs plays every song exactly once: the history is then a duplicate-
      free list of all indices that starts at the drawn start song and ends at
      the song playing now. */
  lemma ShuffleCycleVisitsEverySong(s: Session, start: nat, ks: seq<nat>)
    requires Inv(s) && !s.isShuffling && |s.playlist| >= 2
    requires |ks| == |s.playlist| - 1
    requires ValidRun(s, [ShuffleToggle(start)] + Nexts(ks))
    ensures var r := Run(s, [ShuffleToggle(start)] + Nexts(ks));
      && |r.history| == |s.playlist|
      && Distinct(r.history)
      && Covers(r.history, |s.playlist|)
      && r.history[0] == start
      && CurrentIsLatest(r)
  {
    var es := [ShuffleToggle(start)] + Nexts(ks);
    var t := ToggleShuffle(s, start);
    ToggleShuffleKeepsInv(s, start);
    assert es[1..] == Nexts(ks);
    NextsKeepCycle(t, ks);
    NextsExtendHistory(t, ks);
    var r := Run(t, Nexts(ks));
    assert r == Run(s, es);
    assert t.history == [start];
    Pigeonhole(r.history, |s.playlist|);
  }
}

=== FILE: player.dfy ===
/** The playback controller: every user action and media event of the player
    as a pure transition on the session. Random draws arrive as an explicit
    choice `k`; whatever the audio element is told to do (load, play, pause,
    rewind) leaves no trace in the session and is not modelled. */
module Player {
  import opened IndexSeqs
  import opened State
  import opened Shuffle

  /** Loads the song at `index`. An index outside the playlist is ignored;
      otherwise only the current index changes: the play state carries over
      (a playing session starts the new song at once). */
  function LoadSong(s: Session, index: int): (r: Session)
    ensures !(0 <= index < |s.playlist|) ==> r == s
    ensures 0 <= index < |s.playlist| ==> r == s.(current := index)
  {
    if index < 0 || index >= |s.playlist| then s
    else s.(current := index)
  }

  /** Play/pause. Ignored on an empty playlist; with nothing loaded yet the
      first song is loaded before playback starts. */
  function TogglePlay(s: Session): (r: Session)
    ensures |s.playlist| == 0 ==> r == s
    ensures |s.playlist| > 0 ==>
      && r.isPlaying == !s.isPlaying
      && r.current == (if s.current == -1 then 0 else s.current)
      && r.playlist == s.playlist && r.history == s.history
      && r.isRepeating == s.isRepeating && r.isShuffling == s.isShuffling
  {
    if |s.playlist| == 0 then s
    else
      var loaded := if s.current == -1 then LoadSong(s, 0) else s;
      loaded.(isPlaying := !loaded.isPlaying)
  }

  /** Repeat-one on/off: flips the flag and nothing else. */
  function ToggleRepeat(s: Session): (r: Session)
    ensures r.isRepeating != s.isRepeating
    ensures r.(isRepeating := s.isRepeating) == s
  {
    s.(isRepeating := !s.isRepeating)
  }

  /** `k` stands for the random start song drawn when shuffle is switched on
      with a non-empty playlist. */
  predicate ShuffleOnOk(s: Session, k: nat) {
    s.isShuffling || |s.playlist| == 0 || k < |s.playlist|
  }

  /** Shuffle on/off. Switching on clears the history and, if there are songs,
      starts a new cycle at song `k` and plays it. Switching off clears the
      history and leaves the current song where it is. */
  function ToggleShuffle(s: Session, k: nat): (r: Session)
    requires ShuffleOnOk(s, k)
    ensures r.isShuffling == !s.isShuffling
    ensures r.playlist == s.playlist && r.isRepeating == s.isRepeating
    ensures !s.isShuffling && |s.playlist| > 0 ==>
      r.history == [k] && r.current == k && r.isPlaying
    ensures !s.isShuffling && |s.playlist| == 0 ==>
      r.history == [] && r.current == s.current && r.isPlaying == s.isPlaying
    ensures s.isShuffling ==>
      r.history == [] && r.current == s.current && r.isPlaying == s.isPlaying
  {
    if !s.isShuffling then
      var on := s.(isShuffling := true, history := []);
      if |s.playlist| > 0 then
        LoadSong(on.(history := [k]), k).(isPlaying := true)
      else on
    else s.(isShuffling := false, history := [])
  }

  /** The index linear "next" moves to: one further, wrapping to the start. */
  function LinearNext(s: Session): int {
    if s.current < |s.playlist| - 1 then s.current + 1 else 0
  }

  /** The index linear "previous" moves to: one back, wrapping to the end. */
  function LinearPrevious(s: Session): int {
    if s.current > 0 then s.current - 1 else |s.playlist| - 1
  }

  /** `k` is a valid random draw for the next shuffle pick (no draw is made
      on an empty playlist or outside shuffle mode). */
  predicate NextOk(s: Session, k: nat) {
    |s.playlist| == 0 || !s.isShuffling ||
    ChoiceOk(|s.playlist|, s.current, s.history, k)
  }

  /** Skip forward: ignored on an empty playlist; under shuffle the shuffle
      engine picks the song and records it in the history; otherwise the
      next song in playlist order, wrapping round. */
  function NextSong(s: Session, k: nat): (r: Session)
    requires NextOk(s, k)
    ensures |s.playlist| == 0 ==> r == s
    ensures r.playlist == s.playlist && r.isPlaying == s.isPlaying
    ensures r.isRepeating == s.isRepeating && r.isShuffling == s.isShuffling
    ensures |s.playlist| > 0 && !s.isShuffling ==>
      r.history == s.history &&
      (s.current >= -1 ==> 0 <= r.current < |s.playlist|) &&
      (0 <= s.current + 1 < |s.playlist| ==> r.current == s.current + 1) &&
      (s.current == |s.playlist| - 1 ==> r.current == 0)
    ensures |s.playlist| > 0 && s.isShuffling ==>
      var p := NextShuffleIndex(|s.playlist|, s.current, s.history, k);
      r.current == p.index && r.history == p.history
  {
    if |s.playlist| == 0 then s
    else if s.isShuffling then
      var p := NextShuffleIndex(|s.playlist|, s.current, s.history, k);
      LoadSong(s.(history := p.history), p.index)
    else LoadSong(s, LinearNext(s))
  }

  /** Skip back: ignored on an empty playlist; under shuffle with more than
      one song in the history, the last entry is dropped and the song now last
      in the history is loaded; otherwise the previous song in playlist order,
      wrapping round. */
  function PreviousSong(s: Session): (r: Session)
    ensures |s.playlist| == 0 ==> r == s
    ensures r.playlist == s.playlist && r.isPlaying == s.isPlaying
    ensures r.isRepeating == s.isRepeating && r.isShuffling == s.isShuffling
    ensures |s.playlist| > 0 && s.isShuffling && |s.history| > 1 ==>
      && r.history == s.history[..|s.history| - 1]
      && (0 <= s.history[|s.history| - 2] < |s.playlist| ==>
            r.current == s.history[|s.history| - 2])
    ensures |s.playlist| > 0 && !(s.isShuffling && |s.history| > 1) ==>
      && r.history == s.history
      && (0 < s.current < |s.playlist| ==> r.current == s.current - 1)
      && (s.current <= 0 ==> r.current == |s.playlist| - 1)
  {
    if |s.playlist| == 0 then s
    else if s.isShuffling && |s.history| > 1 then
      var popped := s.history[..|s.history| - 1];
      LoadSong(s.(history := popped), popped[|popped| - 1])
    else LoadSong(s, LinearPrevious(s))
  }

  /** The media element reports the end of the song: under repeat-one the
      same song restarts (the audio element is rewound; the session does not
      change, the shuffle history included); otherwise it is a skip forward. */
  function HandleSongEnd(s: Session, k: nat): (r: Session)
    requires s.isRepeating || NextOk(s, k)
    ensures s.isRepeating ==> r == s
    ensures !s.isRepeating ==> r == NextSong(s, k)
  {
    if s.isRepeating then s else NextSong(s, k)
  }

  /** The playlist with the entry at `index` taken out. */
  function RemoveAt<T>(xs: seq<T>, index: int): (r: seq<T>)
    requires 0 <= index < |xs|
    ensures |r| == |xs| - 1
    ensures forall j :: 0 <= j < |r| ==> r[j] == xs[Origin(j, index)]
  {
    xs[..index] + xs[index + 1..]
  }

  /** Removes the song at `index`. The history is renumbered to follow the
      playlist. Removing the current song loads the song that moved into its
      place (or the first song, if the last one was removed); removing the
      only song empties the session and stops playback. Removing an earlier
      song shifts `current` down so that it keeps its song. */
  function RemoveSong(s: Session, index: int): (r: Session)
    requires 0 <= index < |s.playlist|
    ensures r.playlist == RemoveAt(s.playlist, index)
    ensures r.isRepeating == s.isRepeating && r.isShuffling == s.isShuffling
    ensures |r.playlist| == 0 && index == s.current ==>
      r.current == -1 && !r.isPlaying && r.history == []
    ensures !(|r.playlist| == 0 && index == s.current) ==>
      r.isPlaying == s.isPlaying && r.history == RenumberHistory(s.history, index)
    ensures |r.playlist| > 0 && index == s.current ==>
      r.current == (if index == |r.playlist| then 0 else index)
    ensures index < s.current ==> r.current == s.current - 1
    ensures index > s.current ==> r.current == s.current
  {
    var rest := s.(playlist := RemoveAt(s.playlist, index),
                   history := RenumberHistory(s.history, index));
    if index == s.current then
      if |rest.playlist| == 0 then
        rest.(current := -1, isPlaying := false, history := [])
      else
        var newIndex := if index >= |rest.playlist| then 0 else index;
        // script.js first sets `current` to one below the new index; loading
        // overwrites it at once.
        LoadSong(rest.(current := newIndex - 1), newIndex)
    else if index < s.current then rest.(current := s.current - 1)
    else rest
  }

  /** Appends songs in the order given; when nothing was loaded yet and the
      playlist is now non-empty, the first song is loaded. */
  function AppendSongs(s: Session, songs: seq<Song>): (r: Session)
    ensures r.playlist == s.playlist + songs
    ensures r.history == s.history && r.isPlaying == s.isPlaying
    ensures r.isRepeating == s.isRepeating && r.isShuffling == s.isShuffling
    ensures s.current == -1 && |r.playlist| > 0 ==> r.current == 0
    ensures !(s.current == -1 && |r.playlist| > 0) ==> r.current == s.current
  {
    var grown := s.(playlist := s.playlist + songs);
    if grown.current == -1 && |grown.playlist| > 0 then LoadSong(grown, 0)
    else grown
  }

  /** The elements of `xs` that satisfy `keep`, in their original order. */
  function Filter<F(==, !new)>(xs: seq<F>, keep: F -> bool): (r: seq<F>)
    ensures |r| <= |xs|
    ensures forall x :: x in r <==> x in xs && keep(x)
    ensures (forall i :: 0 <= i < |xs| ==> keep(xs[i])) ==> r == xs
    decreases |xs|
  {
    if |xs| == 0 then []
    else
      var rest := Filter(xs[1..], keep);
      assert forall x :: x in xs <==> x == xs[0] || x in xs[1..];
      if keep(xs[0]) then [xs[0]] + rest else rest
  }

  /** The songs made from `files`, one per file, in the same order. */
  function SongsOf<F(!new)>(files: seq<F>, toSong: F -> Song): (r: seq<Song>)
    ensures |r| == |files|
    ensures forall i :: 0 <= i < |files| ==> r[i] == toSong(files[i])
  {
    seq(|files|, i requires 0 <= i < |files| => toSong(files[i]))
  }

  /** Adds dropped or selected files: the audio files among them (`isAudio`
      stands for the MIME-type/extension test) become songs (`toSong` stands
      for deriving the name and creating the object URL) and are appended. */
  function AddFiles<F(==, !new)>(s: Session, files: seq<F>, isAudio: F -> bool, toSong: F -> Song): (r: Session)
    ensures |s.playlist| <= |r.playlist| <= |s.playlist| + |files|
    ensures r.playlist[..|s.playlist|] == s.playlist
    ensures r.playlist[|s.playlist|..] == SongsOf(Filter(files, isAudio), toSong)
    ensures forall i :: |s.playlist| <= i < |r.playlist| ==>
      exists f :: f in files && isAudio(f) && r.playlist[i] == toSong(f)
    ensures r.history == s.history && r.isPlaying == s.isPlaying
    ensures r.isRepeating == s.isRepeating && r.isShuffling == s.isShuffling
    ensures s.current == -1 && |r.playlist| > 0 ==> r.current == 0
    ensures !(s.current == -1 && |r.playlist| > 0) ==> r.current == s.current
  {
    var audio := Filter(files, isAudio);
    var songs := SongsOf(audio, toSong);
    var r := AppendSongs(s, songs);
    assert r.playlist[..|s.playlist|] == s.playlist && r.playlist[|s.playlist|..] == songs;
    assert forall i :: |s.playlist| <= i < |r.playlist| ==>
      r.playlist[i] == toSong(audio[i - |s.playlist|]) && audio[i - |s.playlist|] in audio;
    r
  }

  /** Every audio file among those added ends up in the playlist. */
  lemma AddFilesKeepsAudio<F(!new)>(s: Session, files: seq<F>, isAudio: F -> bool, toSong: F -> Song)
    ensures forall f :: f in files && isAudio(f) ==>
      toSong(f) in AddFiles(s, files, isAudio, toSong).playlist[|s.playlist|..]
  {
    var audio := Filter(files, isAudio);
    var songs := SongsOf(audio, toSong);
    var r := AddFiles(s, files, isAudio, toSong);
    assert r.playlist[|s.playlist|..] == songs;
    forall f | f in files && isAudio(f)
      ensures toSong(f) in songs
    {
      var i :| 0 <= i < |audio| && audio[i] == f;
      assert songs[i] == toSong(f);
    }
  }

  /** Filtering distributes over concatenation: kept elements keep their
      relative order. */
  lemma {:induction false} FilterAppend<F(!new)>(xs: seq<F>, ys: seq<F>, keep: F -> bool)
    ensures Filter(xs + ys, keep) == Filter(xs, keep) + Filter(ys, keep)
    decreases |xs|
  {
    if |xs| > 0 {
      assert (xs + ys)[1..] == xs[1..] + ys;
      FilterAppend(xs[1..], ys, keep);
    } else {
      assert xs + ys == ys;
    }
  }
}

=== FILE: scenarios.dfy ===
/** Small concrete sessions walked through the transitions. */
module Scenarios {
  import opened State
  import opened Shuffle
  import opened Player
  import TimeFormat

  function Three(): seq<Song> {
    [Song("A", "blob:a"), Song("B", "blob:b"), Song("C", "blob:c")]
  }

  /** In playlist order, "next" walks A, B, C and wraps back to A. */
  lemma LinearNextWraps()
    ensures var s0 := Session(Three(), 0, true, false, false, []);
      var s1 := NextSong(s0, 0);
      var s2 := NextSong(s1, 0);
      var s3 := NextSong(s2, 0);
      s1.current == 1 && s2.current == 2 && s3.current == 0 && s3 == s0
  {
  }

  /** With two songs and shuffle switched on at song 0, the next pick can only
      be song 1; the pick after that completes the cycle, restarts the history
      from song 1 and can only be song 0. */
  lemma TwoSongShuffle(k1: nat, k2: nat)
    ensures var s0 := AppendSongs(Initial(), Three()[..2]);
      var s1 := ToggleShuffle(s0, 0);
      && s1.history == [0] && s1.current == 0 && s1.isPlaying
      && (NextOk(s1, k1) <==> k1 == 0)
      && (NextOk(s1, k1) ==>
            var s2 := NextSong(s1, k1);
            && s2.current == 1 && s2.history == [0, 1]
            && (NextOk(s2, k2) <==> k2 == 0)
            && (NextOk(s2, k2) ==>
                  var s3 := NextSong(s2, k2);
                  s3.current == 0 && s3.history == [1, 0]))
  {
    var two := Three()[..2];
    var s0 := AppendSongs(Initial(), two);
    assert s0 == Session(two, 0, false, false, false, []);
    var s1 := ToggleShuffle(s0, 0);
    assert s1 == Session(two, 0, true, false, true, [0]);
    assert Unplayed(1, [0]) == [];
    assert Unplayed(2, [0]) == [1];
    assert Unplayed(1, [0, 1]) == [];
    assert Unplayed(2, [0, 1]) == [];
    assert Unplayed(1, [1]) == [0];
    assert Unplayed(2, [1]) == [0];
  }

  /** Shuffle switched on while the playlist is empty records nothing; adding
      two songs then loads song 0 without recording it, and the draw 0 makes
      "next" play song 0 again. */
  lemma ShuffleReplaysAutoloadedSong()
    ensures var s0 := ToggleShuffle(Initial(), 0);
      var s1 := AppendSongs(s0, Three()[..2]);
      && s1.isShuffling && s1.current == 0 && s1.history == []
      && NextOk(s1, 0) && NextSong(s1, 0).current == 0
  {
    assert Unplayed(1, []) == [0];
    assert Unplayed(2, []) == [0, 1];
  }

  /** Keys alone can replay a song under shuffle: switching shuffle on at
      song 1 records only `[1]`, so "previous" takes the in-order step to
      song 0 without recording it, and the draw 0 makes "next" play song 0
      again. */
  lemma ShuffleReplaysAfterPrevious()
    ensures var s0 := AppendSongs(Initial(), Three());
      var s1 := ToggleShuffle(s0, 1);
      var s2 := PreviousSong(s1);
      && s1.current == 1 && s1.history == [1]
      && s2.current == 0 && s2.history == [1]
      && NextOk(s2, 0) && NextSong(s2, 0).current == 0
  {
    var s0 := AppendSongs(Initial(), Three());
    assert s0 == Session(Three(), 0, false, false, false, []);
    var s1 := ToggleShuffle(s0, 1);
    assert s1 == Session(Three(), 1, true, false, true, [1]);
    var s2 := PreviousSong(s1);
    assert s2 == Session(Three(), 0, true, false, true, [1]);
    assert Unplayed(1, [1]) == [0];
    assert Unplayed(2, [1]) == [0];
    assert Unplayed(3, [1]) == [0, 2];
  }

  /** With an empty history, "next" records only its pick, so "previous"
      takes the in-order step back from it and here lands on the
      automatically loaded song again. */
  lemma PreviousReturnsToAutoloadedSong()
    ensures var s0 := ToggleShuffle(Initial(), 0);
      var s1 := AppendSongs(s0, Three()[..2]);
      var s2 := NextSong(s1, 1);
      && s1.current == 0 && s1.history == []
      && NextOk(s1, 1) && s2.current == 1 && s2.history == [1]
      && PreviousSong(s2).current == 0
  {
    var two := Three()[..2];
    var s1 := AppendSongs(ToggleShuffle(Initial(), 0), two);
    assert s1 == Session(two, 0, false, false, true, []);
    assert Unplayed(1, []) == [0];
    assert Unplayed(2, []) == [0, 1];
    var s2 := NextSong(s1, 1);
    assert s2 == Session(two, 1, false, false, true, [1]);
  }

  /** Removing the playing song loads its successor without recording it. */
  lemma RemovalLoadsUnrecordedSong()
    ensures var s := Session(Three(), 0, true, false, true, [0]);
      var r := RemoveSong(s, 0);
      r.current == 0 && r.history == [] && r.isShuffling
  {
  }

  /** "Previous" after "next" need not return to a song loaded by a click:
      with history `[0]` it returns to the recorded song 0 instead. */
  lemma PreviousSkipsClickedSong()
    ensures var s := LoadSong(Session(Three(), 0, true, false, true, [0]), 2);
      && s.current == 2
      && NextOk(s, 0) && NextSong(s, 0).current == 1
      && PreviousSong(NextSong(s, 0)).current == 0
  {
    assert Unplayed(1, [0]) == [];
    assert Unplayed(2, [0]) == [1];
    assert Unplayed(3, [0]) == [1, 2];
  }

  /** Removing an earlier song keeps the current song and renumbers the
      history; removing the playing last song moves to the first song. */
  lemma RemoveRenumbers()
    ensures var s := Session(Three(), 2, true, false, true, [0, 2, 1]);
      var r := RemoveSong(s, 0);
      r.current == 1 && r.playlist == Three()[1..] && r.history == [1, 0]
    ensures var s := Session(Three(), 2, true, false, false, []);
      RemoveSong(s, 2).current == 0 && RemoveSong(s, 2).isPlaying
  {
  }

  /** Durations as the playlist shows them. */
  lemma DurationWithMinutes()
    ensures TimeFormat.FormatTime(75) == "1:15"
  {
    assert TimeFormat.NatToString(15) == "15";
  }

  lemma DurationPadsSeconds()
    ensures TimeFormat.FormatTime(5) == "0:05"
  {
  }
}

=== FILE: shuffle.dfy ===
/** The shuffle-history engine: choosing the next index under shuffle so that
    every song is visited once per cycle, and keeping the history in step with
    the playlist when an entry is removed. */
module Shuffle {
  import opened IndexSeqs

  /** The indices in [0, n) that `history` does not contain, in ascending
      order: the list of unplayed songs the next shuffle pick is drawn from. */
  function Unplayed(n: int, history: seq<int>): (r: seq<int>)
    ensures forall i :: i in r <==> 0 <= i < n && i !in history
    ensures forall a, b :: 0 <= a < b < |r| ==> r[a] < r[b]
    ensures |r| <= if n < 0 then 0 else n
    decreases n
  {
    if n <= 0 then []
    else
      var below := Unplayed(n - 1, history);
      if n - 1 in history then below
      else
        assert forall a :: 0 <= a < |below| ==> below[a] in below;
        below + [n - 1]
  }

  lemma UnplayedEmpty(n: int, history: seq<int>)
    ensures Unplayed(n, history) == [] <==> Covers(history, n)
  {
    var r := Unplayed(n, history);
    if r != [] {
      assert r[0] in r;
    }
  }

  /** The history a pick is made against: unchanged while some song is
      unplayed; once every song has been played, a new cycle starts from the
      song currently loaded. */
  function CycleHistory(n: int, current: int, history: seq<int>): seq<int> {
    if Unplayed(n, history) == [] then [current] else history
  }

  /** The songs the next pick is drawn from. Once the cycle is complete these
      are all songs other than the current one, which is the same list as the
      songs unplayed against the restarted history `[current]`. */
  function Candidates(n: int, current: int, history: seq<int>): seq<int> {
    Unplayed(n, CycleHistory(n, current, history))
  }

  /** `k` stands for the random draw: it selects one of the candidates. No
      draw is made on a playlist of at most one song. */
  predicate ChoiceOk(n: int, current: int, history: seq<int>, k: nat) {
    n <= 1 || k < |Candidates(n, current, history)|
  }

  /** The chosen index and the history after recording it. */
  datatype Pick = Pick(index: int, history: seq<int>)

  /** The next index to play under shuffle. On a playlist of at most one song
      it is 0 and the history is left alone. Otherwise an unplayed song is
      picked and appended; if none is left, the history restarts as
      `[current]` and a song other than the current one is picked. */
  function NextShuffleIndex(n: int, current: int, history: seq<int>, k: nat): (p: Pick)
    requires ChoiceOk(n, current, history, k)
    ensures n <= 1 ==> p == Pick(0, history)
    ensures n > 1 ==> 0 <= p.index < n
    ensures n > 1 && !Covers(history, n) ==>
      p.index !in history && p.history == history + [p.index]
    ensures n > 1 && Covers(history, n) ==>
      p.index != current && p.history == [current, p.index]
  {
    if n <= 1 then Pick(0, history)
    else
      UnplayedEmpty(n, history);
      var cycle := CycleHistory(n, current, history);
      var pool := Candidates(n, current, history);
      var index := pool[k];
      assert index in pool;
      Pick(index, cycle + [index])
  }

  /** Every candidate can be drawn: for each song the pick may fall on, some
      valid draw picks it. */
  lemma EveryCandidateDrawable(n: int, current: int, history: seq<int>, u: int)
    requires n > 1 && 0 <= u < n && u !in CycleHistory(n, current, history)
    ensures exists k: nat ::
      ChoiceOk(n, current, history, k) && NextShuffleIndex(n, current, history, k).index == u
  {
    var pool := Candidates(n, current, history);
    assert u in pool;
    var k :| 0 <= k < |pool| && pool[k] == u;
    assert ChoiceOk(n, current, history, k);
  }

  /** Different valid draws pick different songs, so each candidate is picked
      by exactly one draw and a uniform draw picks uniformly among them. */
  lemma DrawsPickDistinctSongs(n: int, current: int, history: seq<int>, k1: nat, k2: nat)
    requires n > 1 && k1 != k2
    requires ChoiceOk(n, current, history, k1) && ChoiceOk(n, current, history, k2)
    ensures NextShuffleIndex(n, current, history, k1).index !=
      NextShuffleIndex(n, current, history, k2).index
  {
    var pool := Candidates(n, current, history);
    assert pool[k1] != pool[k2] by {
      if k1 < k2 {
        assert pool[k1] < pool[k2];
      } else {
        assert pool[k2] < pool[k1];
      }
    }
  }

  /** The shuffle history after the playlist entry at `removed` is taken out:
      every occurrence of `removed` is dropped, and every larger entry moves
      down by one to follow its song. An index is in the result exactly when
      the entry it now denotes was in the history before. */
  function RenumberHistory(history: seq<int>, removed: int): (r: seq<int>)
    ensures forall j :: j in r <==> Origin(j, removed) in history
    ensures removed !in history ==> |r| == |history|
    ensures removed !in history ==>
      forall a :: 0 <= a < |r| ==> r[a] == Renumber(history[a], removed)
    ensures |r| <= |history|
    decreases |history|
  {
    if |history| == 0 then []
    else
      var rest := RenumberHistory(history[1..], removed);
      assert forall x :: x in history <==> x == history[0] || x in history[1..];
      if history[0] == removed then rest
      else [Renumber(history[0], removed)] + rest
  }

  /** Renumbering keeps the order of the history: when the duplicate-free
      history holds `removed` at position `p`, exactly that position is
      dropped and every other entry is renumbered where it stands. */
  lemma {:induction false} RenumberHistoryDropsRemoved(history: seq<int>, removed: int, p: int)
    requires Distinct(history) && 0 <= p < |history| && history[p] == removed
    ensures |RenumberHistory(history, removed)| == |history| - 1
    ensures forall a :: 0 <= a < |history| - 1 ==>
      RenumberHistory(history, removed)[a] == Renumber(history[Origin(a, p)], removed)
    decreases |history|
  {
    var r := RenumberHistory(history, removed);
    var t := history[1..];
    var rest := RenumberHistory(t, removed);
    assert Distinct(t) by {
      forall a, b | 0 <= a < b < |t|
        ensures t[a] != t[b]
      {
        assert t[a] == history[a + 1] && t[b] == history[b + 1];
      }
    }
    if p == 0 {
      assert r == rest;
      assert removed !in t by {
        forall j | 0 <= j < |t|
          ensures t[j] != removed
        {
          assert t[j] == history[j + 1];
        }
      }
      forall a | 0 <= a < |history| - 1
        ensures r[a] == Renumber(history[Origin(a, p)], removed)
      {
        assert t[a] == history[a + 1];
      }
    } else {
      assert history[0] != removed;
      assert r == [Renumber(history[0], removed)] + rest;
      assert t[p - 1] == removed;
      RenumberHistoryDropsRemoved(t, removed, p - 1);
      forall a | 0 <= a < |history| - 1
        ensures r[a] == Renumber(history[Origin(a, p)], removed)
      {
        if a > 0 {
          assert r[a] == rest[a - 1];
          assert t[Origin(a - 1, p - 1)] == history[Origin(a, p)];
        }
      }
    }
  }

  /** Renumbering keeps the history duplicate-free and within the shrunken
      playlist. */
  lemma {:induction false} RenumberHistoryKeepsIndices(history: seq<int>, removed: int, n: int)
    requires Distinct(history) && AllBelow(history, n) && 0 <= removed < n
    ensures Distinct(RenumberHistory(history, removed))
    ensures AllBelow(RenumberHistory(history, removed), n - 1)
    decreases |history|
  {
    var r := RenumberHistory(history, removed);
    forall a | 0 <= a < |r|
      ensures 0 <= r[a] < n - 1
    {
      assert r[a] in r;
      assert Origin(r[a], removed) in history;
    }
    if |history| > 0 {
      var t := history[1..];
      assert Distinct(t) && AllBelow(t, n) by {
        forall a, b | 0 <= a < b < |t|
          ensures t[a] != t[b]
        {
          assert t[a] == history[a + 1] && t[b] == history[b + 1];
        }
      }
      RenumberHistoryKeepsIndices(t, removed, n);
      var e := history[0];
      if e != removed {
        var rest := RenumberHistory(t, removed);
        assert r == [Renumber(e, removed)] + rest;
        assert e !in t by {
          forall j | 0 <= j < |t|
            ensures t[j] != e
          {
            assert t[j] == history[j + 1];
          }
        }
        assert Origin(Renumber(e, removed), removed) == e;
        forall a, b | 0 <= a < b < |r|
          ensures r[a] != r[b]
        {
          if a > 0 {
            assert r[a] == rest[a - 1] && r[b] == rest[b - 1];
          } else {
            assert r[b] == rest[b - 1];
            assert rest[b - 1] in rest;
          }
        }
      }
    }
  }
}

=== FILE: state.dfy ===
/** The player session: the playlist, the index of the loaded song, the
    playback flags and the shuffle history, held as one immutable record. */
module State {
  import opened IndexSeqs

  /** A playlist entry: its display name and the locator the audio element
      loads (a local object URL or a remote stream URL). */
  datatype Song = Song(name: string, url: string)

  /** One player session. `current` is -1 while no song is loaded; `history`
      lists the indices visited in the current shuffle cycle, oldest first. */
  datatype Session = Session(
    playlist: seq<Song>,
    current: int,
    isPlaying: bool,
    isRepeating: bool,
    isShuffling: bool,
    history: seq<int>)

  /** The index bookkeeping every transition keeps: `current` is a valid index
      or -1, it is -1 exactly when the playlist is empty, and the shuffle
      history holds distinct valid indices. */
  predicate Inv(s: Session) {
    && -1 <= s.current < |s.playlist|
    && (s.current == -1 <==> |s.playlist| == 0)
    && AllBelow(s.history, |s.playlist|)
    && Distinct(s.history)
  }

  /** The session as the page starts it: nothing loaded, every flag off. */
  function Initial(): (s: Session)
    ensures Inv(s)
    ensures |s.playlist| == 0 && s.history == []
    ensures !s.isPlaying && !s.isRepeating && !s.isShuffling
  {
    Session([], -1, false, false, false, [])
  }
}

=== FILE: time_format.dfy ===
/** The `m:ss` duration text shown for songs and the progress clock, on whole
    seconds. */
module TimeFormat {

  predicate IsDigit(c: char) {
    '0' <= c <= '9'
  }

  predicate AllDigits(s: string) {
    forall i :: 0 <= i < |s| ==> IsDigit(s[i])
  }

  function DigitChar(d: nat): (c: char)
    requires d < 10
    ensures IsDigit(c) && c as int - '0' as int == d
  {
    ('0' as int + d) as char
  }

  /** The number a string of decimal digits denotes (0 for the empty string). */
  function DecimalValue(s: string): nat
    requires AllDigits(s)
    decreases |s|
  {
    if |s| == 0 then 0
    else DecimalValue(s[..|s| - 1]) * 10 + (s[|s| - 1] as int - '0' as int)
  }

  /** The decimal numeral of `n`, without leading zeros: what JavaScript's
      number-to-string gives for a whole number below 10^21 (from there on
      it switches to exponent notation). */
  function NatToString(n: nat): (r: string)
    ensures |r| >= 1 && AllDigits(r)
    ensures DecimalValue(r) == n
    ensures |r| > 1 ==> r[0] != '0'
    ensures n < 10 <==> |r| == 1
    decreases n
  {
    if n < 10 then [DigitChar(n)]
    else
      var r := NatToString(n / 10) + [DigitChar(n % 10)];
      assert r[..|r| - 1] == NatToString(n / 10);
      r
  }

  /** Left-pads with '0' to two characters, as `padStart(2, '0')`. */
  function PadTwo(s: string): (r: string)
    ensures |s| >= 2 ==> r == s
    ensures |s| < 2 ==> r == seq(2 - |s|, _ => '0') + s
  {
    if |s| == 1 then "0" + s
    else if |s| == 0 then "00"
    else s
  }

  /** Whole minutes, a colon, and the remaining seconds as two digits. */
  function FormatTime(seconds: nat): (r: string)
    ensures |r| >= 4 && r[|r| - 3] == ':'
    ensures AllDigits(r[..|r| - 3]) && AllDigits(r[|r| - 2..])
    ensures DecimalValue(r[|r| - 2..]) < 60
    ensures DecimalValue(r[..|r| - 3]) * 60 + DecimalValue(r[|r| - 2..]) == seconds
    ensures |r| > 4 ==> r[0] != '0'
  {
    var mins := NatToString(seconds / 60);
    var secs := PadTwo(NatToString(seconds % 60));
    assert DecimalValue(secs) == seconds % 60 by {
      var t := NatToString(seconds % 60);
      if |t| == 1 {
        assert secs[..1] == "0";
        assert DecimalValue("0") == 0 by {
          assert "0"[..0] == "";
        }
        assert secs[..|secs| - 1] == "0";
      }
    }
    var r := mins + ":" + secs;
    assert r[..|r| - 3] == mins;
    assert r[|r| - 2..] == secs;
    r
  }
}
